=== FILE: README.md ===
# Line-protocol row serializer of the MATLAB Interface for InfluxDB

This project models the MEX function in `src/convert2lineprotocol.cpp` that turns
rows `[startRow, endRow)` of a MATLAB table into InfluxDB line-protocol text. It
also proves properties of that model.

The table arrives as a cell array of columns:
- `data[0]` holds int64 nanosecond timestamps;
- one column per tag comes next, then one column per field.

For every row the function writes:
1. the measurement name;
2. a comma when there are tags, or a space when there are none;
3. the tag pairs `name=value`, comma-separated, followed by a space;
4. the field pairs `name=value`, comma-separated, followed by a space;
5. the timestamp and a newline.

Field values are formatted by column class:
- signed integers get an `i` suffix;
- unsigned integers get a `u` suffix;
- char-cell and string values are double-quoted;
- finite doubles and singles are written as decimal text.

A NaN or infinite field is left out and counted as skipped, and so is a field of any other class. The separator logic uses `pop_back` to remove the comma that would otherwise dangle before the closing space. A row whose fields are all skipped produces no line.

Modules, one file each:

- `Wrappers` (`wrappers.dfy`): `Option`.
- `Text` (`text.dfy`): separator-joined strings (`Join`, `Terminated`, `Split`) and concatenation of string lists (`Concat`). Also the lemmas that connect the loops' comma bookkeeping to a join.
- `Decimal` (`decimal.dfy`): the decimal rendering of integers, as used for `std::to_wstring` on integer values. It is proved to be a bijection onto canonical decimal text.
- `Cells` (`cells.dfy`): a table cell, classified the way the function's `switch` on the column class does. Also the text a cell contributes as a tag value and as a field value, and a line-protocol reading of a field value.
- `LineProtocol` (`lines.dfy`): the declarative description.
  - `Line` is the line of one row, or `None` when the row is dropped.
  - `Convert` is the output for a row range.
  - Properties of both: suppression, separators, and how rows concatenate.
- `Serializer` (`serializer.dfy`): methods that follow the C++ statement by statement. This covers the row loop, the tag loop, the field `switch`, the skip counter and the `if` chain with `pop_back`. Each method is proved to produce exactly the text `LineProtocol` describes.
- `LineReader` (`reader.dfy`): a reader that cuts a line at its separators. It is used to state what the output means:
  - every kept line reads back as its measurement, tags, kept fields and timestamp, provided no name or value holds a separator;
  - the output holds one newline per kept row, provided no name or value holds a newline (spaces and commas are allowed).

The function escapes nothing. Tag values and string field values are copied verbatim (`src/convert2lineprotocol.cpp:55-63`, `:134-142`), and so is the model. Some descriptions of this component say that names and values are escaped; the code does not do it, and the model follows the code. Instead, the readback properties carry an explicit precondition: measurement, names and cell texts hold no space, comma or newline (`PlainRow`). For string field values this is stricter than the quoting demands, because the model's reader ignores quotes. The newline count needs only the absence of newlines (`NewlineFreeRow`).

Two more places where the code and the usual description of this component differ. The model follows the code in both:
- A table with no field columns produces, for every row, a line with no field section (`measurement[,tags] timestamp`). The `addRow` test (`src/convert2lineprotocol.cpp:153`, `:166`) runs only inside a skipped field's branch. With no fields that branch never runs, so the row is kept.
- A field of an unsupported class is skipped and counted like a NaN. It therefore contributes to dropping the row, not only non-finite floats.

## Model

| member | source | states |
|---|---|---|
| Serializer.ConvertToLineProtocol | src/convert2lineprotocol.cpp:37-184 | The returned text equals `Convert`: the texts of the rows `startRow` to `endRow - 1`, in row order. Each is the row's line, or nothing for a dropped row. |
| Serializer.SerializeRow | src/convert2lineprotocol.cpp:38-182 | The row is appended exactly when its declarative `Line` exists. What is appended (row text, timestamp, newline) is exactly that line. For a dropped row the text is the measurement and tag section unchanged. |
| Serializer.WriteTags | src/convert2lineprotocol.cpp:42-74 | After the tag loop the text is the measurement, then a space (no tags) or a comma followed by the tag pairs in tag order. Tag k is read from `data[k + 1]`, the pairs are joined by single commas, and one space closes the section. Each pair is `name=` followed by the cell's text for a char-cell or string column, and by nothing for a column of any other class. |
| Serializer.AppendField | src/convert2lineprotocol.cpp:76-169 | `is_nan` is set exactly when the cell is NaN/Inf or of an unsupported class, and then nothing is appended. Otherwise exactly the field's `name=value` pair is appended. |
| Serializer.CloseField | src/convert2lineprotocol.cpp:170-176 | After the separator step, the text is the head followed by the fields kept so far: each followed by a comma before the last field, or joined by commas and closed by one space after it. The `pop_back` removes the comma a previously kept field left when the last field is skipped. When no field was kept either, it removes the tag section's closing space, the space is written back, and the text is the head again. |
| Serializer.FieldStep | src/convert2lineprotocol.cpp:77-176 | One pass of the field loop adds one to `nanNum` exactly when the field is skipped, and clears `addRow` exactly when `nanNum` reaches the number of fields. Before the last field, the text is the head followed by each kept field so far and a comma. After the last field, when any field was kept, it is the kept pairs joined by commas and one space. Otherwise it is the head unchanged. |
| Serializer.WriteFields | src/convert2lineprotocol.cpp:76-177 | `addRow` holds exactly when there are no fields or at least one field is kept. When any field is kept, the text is the head, the kept pairs in field order joined by single commas, and one space. When no field is kept, including when there are no fields, it is the head unchanged. |
| Cells.FieldValue | src/convert2lineprotocol.cpp:84-168 | A field cell contributes no value exactly when it is a non-finite double/single or of an unsupported class. |
| Cells.FieldPair | src/convert2lineprotocol.cpp:77-168 | A field contributes no `name=value` pair exactly when its cell is skipped. |
| Cells.FieldValueRoundTrip | src/convert2lineprotocol.cpp:84-159 | Every emitted field value reads back as the cell's own value and kind: `i` gives a signed integer, `u` an unsigned one, quotes a string, anything else a float. The string is read as the text between the outer quotes, as it stands, since the code escapes nothing. |
| Cells.SmallEncodings | src/convert2lineprotocol.cpp:120-131 | An int64 cell holding -1 is written `-1i`, and a uint64 cell holding 0 is written `0u`. |
| Decimal.NatToString | src/convert2lineprotocol.cpp:126-129 | The decimal text of an unsigned value is non-empty, all digits, with no leading zero. It is `"0"` exactly for zero. |
| Decimal.IntToString | src/convert2lineprotocol.cpp:120-123 | The decimal text of a signed value is canonical. It starts with `-` exactly when the value is negative. |
| Decimal.ParseNatToString | src/convert2lineprotocol.cpp:126-129 | Reading back the decimal text of an unsigned value gives the value back. |
| Decimal.NatTextRoundTrip | src/convert2lineprotocol.cpp:126-129 | A canonical unsigned decimal text is the text of `n` exactly when its value is `n`: rendering and reading are inverse in both directions. |
| Decimal.ParseIntToString | src/convert2lineprotocol.cpp:180-181 | Reading back the signed decimal text of a timestamp or integer gives the value back. |
| Decimal.IntToStringParse | src/convert2lineprotocol.cpp:120-123 | Rendering the value of any canonical signed decimal text gives that text back: the rendering is onto canonical text. |
| LineProtocol.LineDroppedIff | src/convert2lineprotocol.cpp:145-168 | A row produces no line exactly when it has fields and every field cell is NaN/Inf or of an unsupported class. |
| LineProtocol.LineDroppedIffAllSkipped | src/convert2lineprotocol.cpp:150-166 | A row produces no line exactly when it has fields and its skip count (`nanNum`) equals the number of fields. |
| LineProtocol.EmittedCount | src/convert2lineprotocol.cpp:76-168 | Every field is either emitted or counted as skipped: kept pairs plus skip count equals the number of fields. |
| LineProtocol.OneSkippedField | src/convert2lineprotocol.cpp:170-176 | With exactly one skipped field among several, the row is kept and carries the other fields' pairs in order, joined by single commas. This holds wherever the skipped field is, the last position included. |
| LineProtocol.LineFrame | src/convert2lineprotocol.cpp:42-44 | A kept line starts with the measurement, then a space (no tags) or a comma. It ends with a space, the signed decimal timestamp and a newline. |
| LineProtocol.PairEnd | src/convert2lineprotocol.cpp:84-158 | A kept field pair is non-empty and never ends with a comma. |
| LineProtocol.NoDanglingComma | src/convert2lineprotocol.cpp:170-176 | In a kept line with fields, the character before the space that precedes the timestamp is never a comma, whichever fields were skipped. |
| LineProtocol.RowTextEmpty | src/convert2lineprotocol.cpp:179-182 | A row contributes no text exactly when it is dropped. So `KeptRows`, the count of non-empty row texts, is the number of kept rows. |
| LineProtocol.ConvertStep | src/convert2lineprotocol.cpp:179-181 | Serializing one more row appends exactly that row's text to the output. |
| LineProtocol.ConvertTerminated | src/convert2lineprotocol.cpp:37-181 | The output for `endRow <= startRow` is empty. Any other output is empty or ends with a newline. |
| LineProtocol.RowTextsSplit | src/convert2lineprotocol.cpp:37-184 | The row texts of a range are those of its first part followed by those of its second part. |
| LineProtocol.ConvertSplit | src/convert2lineprotocol.cpp:37-184 | Serializing `[s, m)` and `[m, e)` and concatenating gives the output for `[s, e)`. A row range can be cut anywhere without splitting or reordering a line. |
| LineProtocol.PairsPlain | src/convert2lineprotocol.cpp:49-63 | When names and cell texts hold no separator, no tag pair or emitted field pair holds one either. |
| LineReader.LineLayout | src/convert2lineprotocol.cpp:42-181 | A kept line is three sections joined by single spaces and ended by a newline: the head (measurement and tag pairs, comma-joined), the comma-joined kept field pairs (absent when there are no fields) and the timestamp. |
| LineReader.LineRoundTrip | src/convert2lineprotocol.cpp:42-181 | For a row without separators in its names and values, cutting the kept line at its separators recovers exactly three things: the measurement with the tag pairs in tag order, the kept field pairs in field order, and the timestamp text. |
| LineReader.TagReadBack | src/convert2lineprotocol.cpp:47-69 | Reading back a kept line of such a row gives, for tag k, `name=` followed by the cell's text for a char-cell or string column, and `name=` alone for a column of any other class. |
| LineReader.LineNewline | src/convert2lineprotocol.cpp:181 | A kept line of a row whose names and values hold no newline (spaces and commas allowed) holds exactly one newline, its last character. |
| LineReader.RowNewlines | src/convert2lineprotocol.cpp:179-182 | A newline-free row's text is empty exactly when the row is dropped. When kept, it holds exactly one newline. |
| LineReader.NewlineCount | src/convert2lineprotocol.cpp:37-184 | The output for a range of newline-free rows holds exactly one newline per kept row, whatever spaces and commas the names and values hold. |

## Left out

- The MATLAB Data API plumbing is not modelled: the `ArgumentList` inputs, the `TypedArray`/`CellArray` extraction, and the `ArrayFactory` output (`src/convert2lineprotocol.cpp:16-27`, `:186-188`). Inputs are Dafny values: a `Table` of a timestamp sequence and cell columns, and names as strings.
- The `u16string`/`wstring` conversions are not modelled. A character is a Dafny `char`, and every conversion is the identity.
- `std::to_wstring` on doubles and singles is floating point. A finite real is modelled by its rendered text, `Real(true, digits)`. That rendering is taken as given and not derived from a float.
- The class `switch` is not modelled per column. The source tests each column's class once per row; the model gives each cell its own class. This covers every column the source accepts, and also mixed columns it cannot receive.
- The fixed widths of MATLAB integers are not modelled. Cell values are unbounded integers, and `Cell.InRange` states the class bounds. `std::to_wstring` renders every in-range value exactly, so no wrap-around arises.
- The decrements `--lastTag` and `fieldNames.end() - 1` (`src/convert2lineprotocol.cpp:32-35`) are undefined when the name arrays are empty, and they are not modelled. Zero tags and zero fields are modelled as the loops behave without them: no tag section, and no field section with the row kept.
- Array bounds are a precondition. `RowReadable`/`RangeReadable` require the time column and every tag and field column to have the rows read. The source does no bounds checking and leaves an out-of-range read to the Data API.
- The type checks `startRow`/`endRow` undergo when read as `uint64` are not modelled. They are natural numbers.
- Escaping, batching with a row cursor, and the query/read path are not modelled: this source file does none of them. `LineReader` is a reader for stating properties, not a model of the read path.
- LineProtocol.NoDanglingComma: assumes a finite real renders as digits, point and sign (`IsFloatText`), because the float rendering is not modelled.
- Cells.FieldValueRoundTrip: assumes the same of real cells. Its reader also takes a quoted string as the text between the outer quotes, without unescaping. Line protocol escapes `"` and `\` inside string field values, and the code copies the text verbatim (`src/convert2lineprotocol.cpp:136`, `:142`). So a string holding either character reads back here but would be misread or rejected by a line-protocol reader. The lemma does not promise line-protocol readability for such strings.
- LineProtocol.PairEnd: assumes a finite real renders as digits, point and sign (`IsFloatText`), for the same reason.
- LineReader.LineRoundTrip: holds only for rows whose names and values contain no space, comma or newline (`PlainRow`). A space or comma in the measurement, a name or a tag value makes the line ambiguous, because nothing is escaped. A string field value is wrapped in double quotes (`src/convert2lineprotocol.cpp:136`, `:142`), so a quote-aware reader could read back a space or comma inside it. `ParseLine` ignores quotes and cuts at every space and comma, so such string fields are excluded too.
- LineReader.NewlineCount: holds only for rows whose names and values contain no newline (`NewlineFreeRow`). A string value copied verbatim may itself contain a newline, and then the output has more newlines than kept rows.
- LineReader.LineNewline: holds under the same condition, for the same reason.
- LineReader.RowNewlines: holds under the same condition, for the same reason.
- LineReader.TagReadBack: holds only for `PlainRow` rows, like `LineRoundTrip`, on which it rests.
- Cells.SmallEncodings: shows two small integers only. Evaluating the decimal text of the 20-digit uint64 maximum is left out; the general round-trip lemmas cover every value.

=== FILE: cells.dfy ===
/** One cell of the MATLAB column data handed to the serializer, classified
    the way the serializer's `switch (col.getType())` classifies its column,
    and the text a cell contributes as a tag value or as a field value. */
module Cells {
  import opened Wrappers
  import opened Decimal

  /** Bit width of a MATLAB integer class (int8/uint8 … int64/uint64). */
  datatype IntWidth = W8 | W16 | W32 | W64
  {
    /** The number of distinct values of the class: 2 to the bit width. */
    function Modulus(): nat
    {
      match this
      case W8 => 0x100
      case W16 => 0x1_0000
      case W32 => 0x1_0000_0000
      case W64 => 0x1_0000_0000_0000_0000
    }
  }

  datatype Cell =
    | SignedInt(width: IntWidth, ival: int)      // INT8, INT16, INT32, INT64
    | UnsignedInt(width: IntWidth, uval: nat)    // UINT8, UINT16, UINT32, UINT64
    | Str(text: string)                          // CELL of char vectors, or MATLAB_STRING
    | Real(finite: bool, digits: string)         // DOUBLE or SINGLE; `digits` renders a finite value
    | Unsupported                                // any other MATLAB class
  {
    /** The value fits the cell's MATLAB class. */
    predicate InRange()
    {
      match this
      case SignedInt(w, v) => -(w.Modulus() / 2) <= v < w.Modulus() / 2
      case UnsignedInt(w, v) => v < w.Modulus()
      case _ => true
    }

    /** A field cell the serializer leaves out of its row: NaN or ±Inf, or a
        class with no line-protocol rendering. */
    predicate Skipped()
    {
      (Real? && !finite) || Unsupported?
    }
  }

  /** The text a tag cell contributes after `name=`: the string itself for
      char-cell and string columns (verbatim, no escaping), nothing otherwise. */
  function TagValue(c: Cell): string
  {
    if c.Str? then c.text else ""
  }

  /** The text a field cell contributes after `name=`, or None when the cell
      is skipped. Integers carry an `i` or `u` suffix, strings are quoted
      verbatim (no escaping), finite reals are their decimal rendering. */
  function FieldValue(c: Cell): (r: Option<string>)
    ensures r.None? <==> c.Skipped()
  {
    match c
    case SignedInt(_, v) => Some(IntToString(v) + "i")
    case UnsignedInt(_, v) => Some(NatToString(v) + "u")
    case Str(s) => Some("\"" + s + "\"")
    case Real(finite, digits) => if finite then Some(digits) else None
    case Unsupported => None
  }

  /** `name=value` for a field cell, or None when the cell is skipped. */
  function FieldPair(name: string, c: Cell): (r: Option<string>)
    ensures r.None? <==> c.Skipped()
  {
    match FieldValue(c)
    case Some(v) => Some(name + "=" + v)
    case None => None
  }

  /** What a line-protocol reader recovers from a field value. */
  datatype FieldReading =
    | IntegerReading(ival: int)
    | UnsignedReading(uval: nat)
    | StringReading(text: string)
    | FloatReading(digits: string)

  /** Text the double formatter can produce: digits, a point and a sign.
      NaN and infinities never reach the formatter. */
  predicate IsFloatText(s: string)
  {
    |s| > 0 && forall k :: 0 <= k < |s| ==> IsDigit(s[k]) || s[k] == '.' || s[k] == '-'
  }

  /** Tells a field value's type by the `i`/`u` suffix, by the surrounding
      quotes, or as a float. A quoted value is taken as the text between the
      outer quotes, as it stands: this reader does not unescape, so it is
      not a full line-protocol reader, which would unescape `\"` and `\\`
      inside a string and reject an unescaped quote. */
  function ReadFieldValue(s: string): Option<FieldReading>
  {
    if |s| >= 2 && s[0] == '"' && s[|s| - 1] == '"' then
      Some(StringReading(s[1..|s| - 1]))
    else if |s| > 0 && s[|s| - 1] == 'i' && IsIntText(s[..|s| - 1]) then
      Some(IntegerReading(ParseInt(s[..|s| - 1])))
    else if |s| > 0 && s[|s| - 1] == 'u' && IsNatText(s[..|s| - 1]) then
      Some(UnsignedReading(ParseNat(s[..|s| - 1])))
    else if IsFloatText(s) then
      Some(FloatReading(s))
    else
      None
  }

  /** The reading a field cell is meant to produce. */
  function Intended(c: Cell): FieldReading
    requires !c.Skipped()
  {
    match c
    case SignedInt(_, v) => IntegerReading(v)
    case UnsignedInt(_, v) => UnsignedReading(v)
    case Str(s) => StringReading(s)
    case Real(_, digits) => FloatReading(digits)
  }

  /** Every emitted field value reads back as the cell's value and type: the
      suffixes and quotes keep integers, unsigned integers, strings and
      floats apart. For strings this is with `ReadFieldValue`, which takes
      the text between the outer quotes as it stands; a string holding `"`
      or `\` is emitted unescaped and would be misread by a line-protocol
      reader that unescapes. */
  lemma FieldValueRoundTrip(c: Cell)
    requires c.Real? ==> IsFloatText(c.digits)
    requires !c.Skipped()
    ensures FieldValue(c).Some?
    ensures ReadFieldValue(FieldValue(c).value) == Some(Intended(c))
  {
    var s := FieldValue(c).value;
    match c
    case SignedInt(_, v) =>
      assert s[..|s| - 1] == IntToString(v);
      ParseIntToString(v);
    case UnsignedInt(_, v) =>
      assert s[..|s| - 1] == NatToString(v);
      ParseNatToString(v);
    case Str(t) =>
      assert s[1..|s| - 1] == t;
    case Real(_, digits) =>
      assert !IsDigit(s[0]) ==> s[0] == '.' || s[0] == '-';
  }

  /** -1 as an int64 cell is the field value `-1i`, and 0 as a uint64 cell is `0u`. */
  lemma SmallEncodings()
    ensures SignedInt(W64, -1).InRange() && FieldValue(SignedInt(W64, -1)) == Some("-1i")
    ensures UnsignedInt(W64, 0).InRange() && FieldValue(UnsignedInt(W64, 0)) == Some("0u")
  {
    assert NatToString(1) == "1";
    assert IntToString(-1) + "i" == "-1i";
    assert NatToString(0) + "u" == "0u";
  }
}

=== FILE: decimal.dfy ===
/** Decimal text of integers, as `std::to_wstring` renders an integral value:
    optional `-`, then digits, no leading zeros. */
module Decimal {

  predicate IsDigit(c: char)
  {
    '0' <= c <= '9'
  }

  predicate AllDigits(s: string)
  {
    forall k :: 0 <= k < |s| ==> IsDigit(s[k])
  }

  /** Canonical unsigned decimal text: non-empty digits, no leading zero
      except for "0" itself. */
  predicate IsNatText(s: string)
  {
    |s| > 0 && AllDigits(s) && (s[0] == '0' ==> |s| == 1)
  }

  /** Canonical signed decimal text: a canonical unsigned text, or `-`
      followed by one that is not "0". */
  predicate IsIntText(s: string)
  {
    IsNatText(s) || (|s| > 1 && s[0] == '-' && IsNatText(s[1..]) && s[1..] != "0")
  }

  function DigitChar(d: nat): (c: char)
    requires d < 10
    ensures IsDigit(c)
  {
    "0123456789"[d]
  }

  function DigitValue(c: char): (d: nat)
    requires IsDigit(c)
    ensures d < 10 && DigitChar(d) == c
  {
    (c as int) - ('0' as int)
  }

  /** Decimal digits of `n`. */
  function NatToString(n: nat): (s: string)
    ensures IsNatText(s)
    ensures (s == "0") == (n == 0)
  {
    if n < 10 then [DigitChar(n)]
    else NatToString(n / 10) + [DigitChar(n % 10)]
  }

  /** Decimal text of `i`, with a leading `-` when negative. */
  function IntToString(i: int): (s: string)
    ensures IsIntText(s)
    ensures (|s| > 0 && s[0] == '-') == (i < 0)
  {
    if i < 0 then "-" + NatToString(-i) else NatToString(i)
  }

  /** The value of a string of decimal digits. */
  function ParseNat(s: string): nat
    requires AllDigits(s)
  {
    if |s| == 0 then 0
    else ParseNat(s[..|s| - 1]) * 10 + DigitValue(s[|s| - 1])
  }

  /** The value of a canonical signed decimal text. */
  function ParseInt(s: string): int
    requires IsIntText(s)
  {
    if IsNatText(s) then ParseNat(s) else -(ParseNat(s[1..]) as int)
  }

  /** Reading back the digits of `n` gives `n`. */
  lemma {:induction false} ParseNatToString(n: nat)
    ensures ParseNat(NatToString(n)) == n
  {
    var s := NatToString(n);
    if n >= 10 {
      ParseNatToString(n / 10);
      assert s[..|s| - 1] == NatToString(n / 10);
    }
  }

  /** A canonical text that does not start with `0` denotes a positive number. */
  lemma {:induction false} ParseNatPositive(s: string)
    requires IsNatText(s) && s[0] != '0'
    ensures ParseNat(s) > 0
  {
    if |s| > 1 {
      var p := s[..|s| - 1];
      ParseNatPositive(p);
    }
  }

  /** Rendering the value of a canonical text gives the text back. */
  lemma {:induction false} NatToStringParse(s: string)
    requires IsNatText(s)
    ensures NatToString(ParseNat(s)) == s
  {
    if |s| > 1 {
      var p := s[..|s| - 1];
      var d := DigitValue(s[|s| - 1]);
      assert IsNatText(p);
      ParseNatPositive(p);
      NatToStringParse(p);
      var n := ParseNat(s);
      assert n == ParseNat(p) * 10 + d;
      assert n / 10 == ParseNat(p) && n % 10 == d;
      assert s == p + [s[|s| - 1]];
    }
  }

  /** Rendering and parsing are inverse on every natural number and every
      canonical text. */
  lemma NatTextRoundTrip(n: nat, s: string)
    requires IsNatText(s)
    ensures NatToString(n) == s <==> ParseNat(s) == n
  {
    ParseNatToString(n);
    NatToStringParse(s);
  }

  /** Reading back the signed text of `i` gives `i`. */
  lemma ParseIntToString(i: int)
    ensures ParseInt(IntToString(i)) == i
  {
    if i < 0 {
      var digits := NatToString(-i);
      var s := "-" + digits;
      assert s[1..] == digits;
      assert !IsDigit(s[0]);
      ParseNatToString(-i);
      assert ParseInt(s) == -(ParseNat(digits) as int);
    } else {
      ParseNatToString(i);
    }
  }

  /** Rendering the value of a canonical signed text gives the text back. */
  lemma IntToStringParse(s: string)
    requires IsIntText(s)
    ensures IntToString(ParseInt(s)) == s
  {
    if IsNatText(s) {
      NatToStringParse(s);
    } else {
      NatToStringParse(s[1..]);
      ParseNatPositive(s[1..]);
      assert s == "-" + s[1..];
    }
  }

}

=== FILE: lines.dfy ===
/** The line-protocol text the serializer produces, stated declaratively:
    one line per kept row, fields joined by single commas, rows whose every
    field is skipped left out. */
module LineProtocol {
  import opened Wrappers
  import opened Text
  import opened Decimal
  import opened Cells

  /** The serializer's `data` cell array: `time` is `data[0]` (int64
      nanoseconds since the epoch) and `columns[c]` is `data[c + 1]`:
      first one column per tag, then one column per field. */
  datatype Table = Table(time: seq<int>, columns: seq<seq<Cell>>)

  /** Row `row` exists in the time column and in the first `nCols` data columns. */
  predicate RowReadable(t: Table, nCols: nat, row: nat)
  {
    && row < |t.time|
    && nCols <= |t.columns|
    && forall c :: 0 <= c < nCols ==> row < |t.columns[c]|
  }

  /** Every row of `[startRow, endRow)` is readable; an empty range reads nothing. */
  predicate RangeReadable(t: Table, nCols: nat, startRow: nat, endRow: nat)
  {
    endRow <= startRow || RowReadable(t, nCols, endRow - 1)
  }

  /** A row of a readable range is readable. */
  lemma RangeRow(t: Table, nCols: nat, startRow: nat, endRow: nat, row: nat)
    requires RangeReadable(t, nCols, startRow, endRow)
    requires startRow <= row < endRow
    ensures RowReadable(t, nCols, row)
    ensures RangeReadable(t, nCols, startRow, row) && RangeReadable(t, nCols, startRow, row + 1)
  {
  }

  /** `name=value` for each tag, in tag order; tag k is read from `data[k + 1]`. */
  function TagPairs(tagNames: seq<string>, t: Table, row: nat): (r: seq<string>)
    requires RowReadable(t, |tagNames|, row)
    ensures |r| == |tagNames|
  {
    seq(|tagNames|, k requires 0 <= k < |tagNames| => tagNames[k] + "=" + TagValue(t.columns[k][row]))
  }

  /** The cell of field `j` in row `row`: `data[nTags + 1 + j][row]`. */
  function FieldCell(t: Table, nTags: nat, j: nat, row: nat): Cell
    requires nTags + j < |t.columns| && row < |t.columns[nTags + j]|
  {
    t.columns[nTags + j][row]
  }

  /** `name=value`, or None when skipped, for each field, in field order;
      field j is read from `data[nTags + 1 + j]`. */
  function FieldOptions(nTags: nat, fieldNames: seq<string>, t: Table, row: nat): (r: seq<Option<string>>)
    requires RowReadable(t, nTags + |fieldNames|, row)
    ensures |r| == |fieldNames|
  {
    seq(|fieldNames|, j requires 0 <= j < |fieldNames| => FieldPair(fieldNames[j], FieldCell(t, nTags, j, row)))
  }

  /** The present values of `opts`, in order. */
  function Emitted(opts: seq<Option<string>>): seq<string>
  {
    if |opts| == 0 then []
    else Emitted(opts[..|opts| - 1]) + (if opts[|opts| - 1].Some? then [opts[|opts| - 1].value] else [])
  }

  /** The number of absent values of `opts`: the serializer's `nanNum`. */
  function SkipCount(opts: seq<Option<string>>): nat
  {
    if |opts| == 0 then 0
    else SkipCount(opts[..|opts| - 1]) + (if opts[|opts| - 1].None? then 1 else 0)
  }

  /** The text after the measurement name and before the field section:
      a single space without tags, otherwise a comma, the comma-joined tag
      pairs and a single space. */
  function TagSection(tagNames: seq<string>, t: Table, row: nat): string
    requires RowReadable(t, |tagNames|, row)
  {
    if |tagNames| == 0 then " " else "," + Join(TagPairs(tagNames, t, row), ',') + " "
  }

  /** The line for row `row`, or None when the row is dropped because every
      field was skipped. With no fields at all the row is kept and has no
      field section. */
  function Line(measurement: string, tagNames: seq<string>, fieldNames: seq<string>, t: Table, row: nat): Option<string>
    requires RowReadable(t, |tagNames| + |fieldNames|, row)
  {
    var pairs := Emitted(FieldOptions(|tagNames|, fieldNames, t, row));
    if |fieldNames| > 0 && |pairs| == 0 then None
    else
      var fieldSection := if |fieldNames| == 0 then "" else Join(pairs, ',') + " ";
      Some(measurement + TagSection(tagNames, t, row) + fieldSection + IntToString(t.time[row]) + "\n")
  }

  /** The text row `row` contributes to the output: its line, or nothing. */
  function RowText(measurement: string, tagNames: seq<string>, fieldNames: seq<string>, t: Table, row: nat): string
    requires RowReadable(t, |tagNames| + |fieldNames|, row)
  {
    match Line(measurement, tagNames, fieldNames, t, row)
    case Some(l) => l
    case None => ""
  }

  /** A row's text is empty exactly when the row is dropped: a kept line
      always ends with a newline. */
  lemma RowTextEmpty(measurement: string, tagNames: seq<string>, fieldNames: seq<string>, t: Table, row: nat)
    requires RowReadable(t, |tagNames| + |fieldNames|, row)
    ensures RowText(measurement, tagNames, fieldNames, t, row) == "" <==> Line(measurement, tagNames, fieldNames, t, row).None?
  {
  }

  /** The text of each row of `[startRow, endRow)`, in row order. */
  function RowTexts(measurement: string, tagNames: seq<string>, fieldNames: seq<string>, t: Table,
                    startRow: nat, endRow: nat): seq<string>
    requires RangeReadable(t, |tagNames| + |fieldNames|, startRow, endRow)
  {
    if endRow <= startRow then []
    else
      seq(endRow - startRow, i requires 0 <= i < endRow - startRow =>
        RowText(measurement, tagNames, fieldNames, t, startRow + i))
  }

  /** The serializer's output for rows `[startRow, endRow)`: the rows' lines
      in row order, each row appending its line or nothing. */
  function Convert(measurement: string, tagNames: seq<string>, fieldNames: seq<string>, t: Table,
                   startRow: nat, endRow: nat): string
    requires RangeReadable(t, |tagNames| + |fieldNames|, startRow, endRow)
  {
    Concat(RowTexts(measurement, tagNames, fieldNames, t, startRow, endRow))
  }

  /** The number of rows of `[startRow, endRow)` that produce a line: a
      kept line is never empty, so these are the rows with non-empty text. */
  function KeptRows(measurement: string, tagNames: seq<string>, fieldNames: seq<string>, t: Table,
                    startRow: nat, endRow: nat): nat
    requires RangeReadable(t, |tagNames| + |fieldNames|, startRow, endRow)
  {
    NonEmpty(RowTexts(measurement, tagNames, fieldNames, t, startRow, endRow))
  }

  // ---------------------------------------------------------------------------
  // Field bookkeeping

  /** Every value is either emitted or counted as skipped. */
  lemma {:induction false} EmittedCount(opts: seq<Option<string>>)
    ensures |Emitted(opts)| + SkipCount(opts) == |opts|
  {
    if |opts| > 0 {
      EmittedCount(opts[..|opts| - 1]);
    }
  }

  /** Considering one more value emits it when present and counts it as
      skipped when absent. */
  lemma EmittedStep(opts: seq<Option<string>>, j: nat)
    requires j < |opts|
    ensures Emitted(opts[..j + 1]) == Emitted(opts[..j]) + (if opts[j].Some? then [opts[j].value] else [])
    ensures SkipCount(opts[..j + 1]) == SkipCount(opts[..j]) + (if opts[j].None? then 1 else 0)
  {
    assert opts[..j + 1][..j] == opts[..j];
  }

  /** Considering one more value adds one to the skip count exactly when
      it is absent, and the count never exceeds the values considered. */
  lemma SkipStep(opts: seq<Option<string>>, j: nat)
    requires j < |opts|
    ensures SkipCount(opts[..j + 1]) == SkipCount(opts[..j]) + (if opts[j].None? then 1 else 0)
    ensures SkipCount(opts[..j + 1]) <= j + 1
  {
    EmittedStep(opts, j);
    EmittedCount(opts[..j + 1]);
  }

  /** Exactly the present values are emitted. */
  lemma {:induction false} EmittedMembers(opts: seq<Option<string>>)
    ensures forall x :: x in Emitted(opts) <==> Some(x) in opts
  {
    if |opts| > 0 {
      var init := opts[..|opts| - 1];
      EmittedMembers(init);
      assert opts == init + [opts[|opts| - 1]];
    }
  }

  /** Nothing is emitted exactly when every value is absent. */
  lemma EmittedEmpty(opts: seq<Option<string>>)
    ensures Emitted(opts) == [] <==> forall j :: 0 <= j < |opts| ==> opts[j].None?
  {
    EmittedMembers(opts);
    if Emitted(opts) != [] {
      assert Some(Emitted(opts)[0]) in opts;
    }
    forall j | 0 <= j < |opts| && opts[j].Some?
      ensures opts[j].value in Emitted(opts)
    {
      assert opts[j] in opts;
    }
  }

  /** A single absent value among present ones is a skip count of one. */
  lemma {:induction false} SkipCountOne(opts: seq<Option<string>>, j0: nat)
    requires j0 < |opts| && opts[j0].None?
    requires forall j :: 0 <= j < |opts| && j != j0 ==> opts[j].Some?
    ensures SkipCount(opts) == 1
  {
    var init := opts[..|opts| - 1];
    if j0 == |opts| - 1 {
      SkipCountNone(init);
    } else {
      SkipCountOne(init, j0);
    }
  }

  /** No absent value is a skip count of zero. */
  lemma {:induction false} SkipCountNone(opts: seq<Option<string>>)
    requires forall j :: 0 <= j < |opts| ==> opts[j].Some?
    ensures SkipCount(opts) == 0
  {
    if |opts| > 0 {
      SkipCountNone(opts[..|opts| - 1]);
    }
  }

  // ---------------------------------------------------------------------------
  // Properties of one line

  /** A row is dropped exactly when it has fields and every one of them is
      NaN/Inf or of an unsupported class. */
  lemma LineDroppedIff(measurement: string, tagNames: seq<string>, fieldNames: seq<string>, t: Table, row: nat)
    requires RowReadable(t, |tagNames| + |fieldNames|, row)
    ensures Line(measurement, tagNames, fieldNames, t, row).None?
        <==> |fieldNames| > 0 && forall j :: 0 <= j < |fieldNames| ==> FieldCell(t, |tagNames|, j, row).Skipped()
  {
    var opts := FieldOptions(|tagNames|, fieldNames, t, row);
    EmittedEmpty(opts);
    assert forall j :: 0 <= j < |fieldNames| ==> (opts[j].None? <==> FieldCell(t, |tagNames|, j, row).Skipped());
  }

  /** A row is dropped exactly when its skip count equals its number of fields. */
  lemma LineDroppedIffAllSkipped(measurement: string, tagNames: seq<string>, fieldNames: seq<string>, t: Table, row: nat)
    requires RowReadable(t, |tagNames| + |fieldNames|, row)
    ensures Line(measurement, tagNames, fieldNames, t, row).None?
        <==> |fieldNames| > 0 && SkipCount(FieldOptions(|tagNames|, fieldNames, t, row)) == |fieldNames|
  {
    EmittedCount(FieldOptions(|tagNames|, fieldNames, t, row));
  }

  /** With exactly one skipped field among several, the row is kept and its
      line carries the other fields, in order. */
  lemma OneSkippedField(measurement: string, tagNames: seq<string>, fieldNames: seq<string>, t: Table, row: nat, j0: nat)
    requires RowReadable(t, |tagNames| + |fieldNames|, row)
    requires 1 < |fieldNames| && j0 < |fieldNames|
    requires FieldCell(t, |tagNames|, j0, row).Skipped()
    requires forall j :: 0 <= j < |fieldNames| && j != j0 ==> !FieldCell(t, |tagNames|, j, row).Skipped()
    ensures var pairs := Emitted(FieldOptions(|tagNames|, fieldNames, t, row));
            && |pairs| == |fieldNames| - 1
            && Line(measurement, tagNames, fieldNames, t, row)
               == Some(measurement + TagSection(tagNames, t, row) + (Join(pairs, ',') + " ")
                       + IntToString(t.time[row]) + "\n")
  {
    var opts := FieldOptions(|tagNames|, fieldNames, t, row);
    assert forall j :: 0 <= j < |opts| ==> (opts[j].None? <==> FieldCell(t, |tagNames|, j, row).Skipped());
    SkipCountOne(opts, j0);
    EmittedCount(opts);
  }

  /** A kept line starts with the measurement name, followed by a space when
      there are no tags and by a comma otherwise; it ends with a space, the
      row's timestamp in signed decimal and a newline. */
  lemma LineFrame(measurement: string, tagNames: seq<string>, fieldNames: seq<string>, t: Table, row: nat)
    requires RowReadable(t, |tagNames| + |fieldNames|, row)
    requires Line(measurement, tagNames, fieldNames, t, row).Some?
    ensures var l := Line(measurement, tagNames, fieldNames, t, row).value;
            var ts := IntToString(t.time[row]);
            && |l| > |measurement| + |ts| + 1
            && l[..|measurement|] == measurement
            && l[|measurement|] == (if |tagNames| == 0 then ' ' else ',')
            && l[|l| - |ts| - 2] == ' '
            && l[|l| - |ts| - 1..] == ts + "\n"
  {
  }

  /** A kept field pair never ends with a comma: it ends with the `i` or `u`
      suffix, the closing quote, or the last character of a float. */
  lemma PairEnd(name: string, c: Cell)
    requires c.Real? ==> IsFloatText(c.digits)
    requires FieldPair(name, c).Some?
    ensures var p := FieldPair(name, c).value;
            |p| > 0 && p[|p| - 1] != ','
  {
    var v := FieldValue(c).value;
    assert FieldPair(name, c).value == name + "=" + v;
    if c.Real? {
      assert IsDigit(v[|v| - 1]) || v[|v| - 1] == '.' || v[|v| - 1] == '-';
    }
  }

  /** The last emitted pair of a row whose reals render as float text does not end with a comma. */
  lemma LastPairEnd(nTags: nat, fieldNames: seq<string>, t: Table, row: nat)
    requires RowReadable(t, nTags + |fieldNames|, row)
    requires forall j :: 0 <= j < |fieldNames| && FieldCell(t, nTags, j, row).Real?
               ==> IsFloatText(FieldCell(t, nTags, j, row).digits)
    requires |Emitted(FieldOptions(nTags, fieldNames, t, row))| > 0
    ensures var pairs := Emitted(FieldOptions(nTags, fieldNames, t, row));
            var p := pairs[|pairs| - 1];
            |p| > 0 && p[|p| - 1] != ','
  {
    var opts := FieldOptions(nTags, fieldNames, t, row);
    var pairs := Emitted(opts);
    var p := pairs[|pairs| - 1];
    EmittedMembers(opts);
    assert p in pairs;
    var j :| 0 <= j < |opts| && opts[j] == Some(p);
    PairEnd(fieldNames[j], FieldCell(t, nTags, j, row));
  }

  /** In a kept line with fields, the character before the space that
      precedes the timestamp is never a comma, even when the last field or
      any other field was skipped. */
  lemma NoDanglingComma(measurement: string, tagNames: seq<string>, fieldNames: seq<string>, t: Table, row: nat)
    requires RowReadable(t, |tagNames| + |fieldNames|, row)
    requires forall j :: 0 <= j < |fieldNames| && FieldCell(t, |tagNames|, j, row).Real?
               ==> IsFloatText(FieldCell(t, |tagNames|, j, row).digits)
    requires |fieldNames| > 0
    requires Line(measurement, tagNames, fieldNames, t, row).Some?
    ensures var l := Line(measurement, tagNames, fieldNames, t, row).value;
            var ts := IntToString(t.time[row]);
            && |l| >= |ts| + 3
            && l[|l| - |ts| - 2] == ' '
            && l[|l| - |ts| - 3] != ','
  {
    var pairs := Emitted(FieldOptions(|tagNames|, fieldNames, t, row));
    LastPairEnd(|tagNames|, fieldNames, t, row);
    JoinLast(pairs, ',');
    TailLayout(measurement + TagSection(tagNames, t, row), Join(pairs, ','), IntToString(t.time[row]));
  }

  /** Tag pairs and field pairs never hold a comma, space or newline. */
  predicate NoSeparators(s: string)
  {
    ' ' !in s && ',' !in s && '\n' !in s
  }

  /** The text a cell contributes holds no separator. */
  predicate PlainCell(c: Cell)
  {
    match c
    case Str(s) => NoSeparators(s)
    case Real(_, d) => NoSeparators(d)
    case _ => true
  }

  /** Names and cell texts of row `row` hold no separator. The serializer
      escapes nothing, so a space or comma in the measurement, a name or a
      tag value makes the line ambiguous. A string field value is quoted,
      and a quote-aware reader could take a space or comma inside it; the
      reader `ParseLine` ignores quotes, so this predicate excludes those
      values too. */
  predicate PlainRow(measurement: string, tagNames: seq<string>, fieldNames: seq<string>, t: Table, row: nat)
  {
    && RowReadable(t, |tagNames| + |fieldNames|, row)
    && NoSeparators(measurement)
    && (forall k :: 0 <= k < |tagNames| ==> NoSeparators(tagNames[k]) && PlainCell(t.columns[k][row]))
    && (forall j :: 0 <= j < |fieldNames| ==> NoSeparators(fieldNames[j]) && PlainCell(FieldCell(t, |tagNames|, j, row)))
  }

  /** Decimal text holds no separator. */
  lemma DecimalPlain(i: int)
    ensures NoSeparators(IntToString(i))
  {
    var s := IntToString(i);
    assert forall k :: 0 <= k < |s| ==> IsDigit(s[k]) || s[k] == '-';
  }

  /** No element of `xs` holds a separator. */
  predicate AllPlain(xs: seq<string>)
  {
    forall k :: 0 <= k < |xs| ==> NoSeparators(xs[k])
  }

  /** The pairs of a plain row hold no separator. */
  lemma PairsPlain(measurement: string, tagNames: seq<string>, fieldNames: seq<string>, t: Table, row: nat)
    requires PlainRow(measurement, tagNames, fieldNames, t, row)
    ensures AllPlain(TagPairs(tagNames, t, row))
    ensures AllPlain(Emitted(FieldOptions(|tagNames|, fieldNames, t, row)))
  {
    var opts := FieldOptions(|tagNames|, fieldNames, t, row);
    forall j | 0 <= j < |opts| && opts[j].Some?
      ensures NoSeparators(opts[j].value)
    {
      var c := FieldCell(t, |tagNames|, j, row);
      match c
      case SignedInt(_, v) => DecimalPlain(v);
      case UnsignedInt(_, v) => DecimalPlain(v);
      case _ =>
    }
    var pairs := Emitted(opts);
    EmittedMembers(opts);
    forall j | 0 <= j < |pairs|
      ensures NoSeparators(pairs[j])
    {
      assert pairs[j] in pairs;
      var i :| 0 <= i < |opts| && opts[i] == Some(pairs[j]);
    }
  }

  // ---------------------------------------------------------------------------
  // Properties of the row range

  /** The texts of a range hold one text per row, row `startRow + i` at index `i`. */
  lemma RowTextsAt(measurement: string, tagNames: seq<string>, fieldNames: seq<string>, t: Table,
                   startRow: nat, endRow: nat, i: nat)
    requires RangeReadable(t, |tagNames| + |fieldNames|, startRow, endRow)
    requires startRow + i < endRow
    ensures RowReadable(t, |tagNames| + |fieldNames|, startRow + i)
    ensures var texts := RowTexts(measurement, tagNames, fieldNames, t, startRow, endRow);
            |texts| == endRow - startRow && texts[i] == RowText(measurement, tagNames, fieldNames, t, startRow + i)
  {
    RangeRow(t, |tagNames| + |fieldNames|, startRow, endRow, startRow + i);
  }

  /** The texts of one more row are the previous texts and that row's text. */
  lemma RowTextsSnoc(measurement: string, tagNames: seq<string>, fieldNames: seq<string>, t: Table,
                     startRow: nat, row: nat)
    requires startRow <= row
    requires RowReadable(t, |tagNames| + |fieldNames|, row)
    ensures RowTexts(measurement, tagNames, fieldNames, t, startRow, row + 1)
         == RowTexts(measurement, tagNames, fieldNames, t, startRow, row)
          + [RowText(measurement, tagNames, fieldNames, t, row)]
  {
    var prior := RowTexts(measurement, tagNames, fieldNames, t, startRow, row);
    var whole := RowTexts(measurement, tagNames, fieldNames, t, startRow, row + 1);
    assert |whole| == |prior| + 1;
    assert whole[..|prior|] == prior;
  }

  /** Serializing one more row appends that row's text. */
  lemma ConvertStep(measurement: string, tagNames: seq<string>, fieldNames: seq<string>, t: Table,
                    startRow: nat, row: nat)
    requires startRow <= row
    requires RowReadable(t, |tagNames| + |fieldNames|, row)
    ensures Convert(measurement, tagNames, fieldNames, t, startRow, row + 1)
         == Convert(measurement, tagNames, fieldNames, t, startRow, row)
          + RowText(measurement, tagNames, fieldNames, t, row)
  {
    RowTextsSnoc(measurement, tagNames, fieldNames, t, startRow, row);
    ConcatSnoc(RowTexts(measurement, tagNames, fieldNames, t, startRow, row),
               RowText(measurement, tagNames, fieldNames, t, row));
  }

  /** A row's text is empty or ends with a newline. */
  lemma RowTextTerminated(measurement: string, tagNames: seq<string>, fieldNames: seq<string>, t: Table, row: nat)
    requires RowReadable(t, |tagNames| + |fieldNames|, row)
    ensures var text := RowText(measurement, tagNames, fieldNames, t, row);
            text == "" || text[|text| - 1] == '\n'
  {
  }

  /** Appending a newline-terminated or empty text to a newline-terminated
      or empty text leaves it newline-terminated or empty. */
  lemma TerminatedAppend(prior: string, text: string)
    requires prior == "" || prior[|prior| - 1] == '\n'
    requires text == "" || text[|text| - 1] == '\n'
    ensures var r := prior + text;
            r == "" || r[|r| - 1] == '\n'
  {
    if text == "" {
      assert prior + text == prior;
    }
  }

  /** The output for an empty or reversed range is empty; any other output
      is empty or ends with a newline, so the last line is terminated. */
  lemma {:induction false} ConvertTerminated(measurement: string, tagNames: seq<string>, fieldNames: seq<string>, t: Table,
                                             startRow: nat, endRow: nat)
    requires RangeReadable(t, |tagNames| + |fieldNames|, startRow, endRow)
    ensures var r := Convert(measurement, tagNames, fieldNames, t, startRow, endRow);
            && (endRow <= startRow ==> r == "")
            && (r == "" || r[|r| - 1] == '\n')
  {
    if startRow < endRow {
      var last := endRow - 1;
      RangeRow(t, |tagNames| + |fieldNames|, startRow, endRow, last);
      ConvertTerminated(measurement, tagNames, fieldNames, t, startRow, last);
      ConvertStep(measurement, tagNames, fieldNames, t, startRow, last);
      RowTextTerminated(measurement, tagNames, fieldNames, t, last);
      TerminatedAppend(Convert(measurement, tagNames, fieldNames, t, startRow, last),
                       RowText(measurement, tagNames, fieldNames, t, last));
    }
  }

  /** The texts of a range are the texts of its first part followed by
      those of its second part. */
  lemma RowTextsSplit(measurement: string, tagNames: seq<string>, fieldNames: seq<string>, t: Table,
                      startRow: nat, midRow: nat, endRow: nat)
    requires startRow <= midRow <= endRow
    requires RangeReadable(t, |tagNames| + |fieldNames|, startRow, endRow)
    ensures RowTexts(measurement, tagNames, fieldNames, t, startRow, endRow)
         == RowTexts(measurement, tagNames, fieldNames, t, startRow, midRow)
          + RowTexts(measurement, tagNames, fieldNames, t, midRow, endRow)
  {
    var whole := RowTexts(measurement, tagNames, fieldNames, t, startRow, endRow);
    var left := RowTexts(measurement, tagNames, fieldNames, t, startRow, midRow);
    var right := RowTexts(measurement, tagNames, fieldNames, t, midRow, endRow);
    assert whole[..|left|] == left;
    assert whole[|left|..] == right;
    assert whole == whole[..|left|] + whole[|left|..];
  }

  /** Serializing a range in two consecutive parts and concatenating the
      results gives the text of the whole range: splitting the rows into
      batches never splits or reorders a line. */
  lemma ConvertSplit(measurement: string, tagNames: seq<string>, fieldNames: seq<string>, t: Table,
                     startRow: nat, midRow: nat, endRow: nat)
    requires startRow <= midRow <= endRow
    requires RangeReadable(t, |tagNames| + |fieldNames|, startRow, endRow)
    ensures Convert(measurement, tagNames, fieldNames, t, startRow, endRow)
         == Convert(measurement, tagNames, fieldNames, t, startRow, midRow)
          + Convert(measurement, tagNames, fieldNames, t, midRow, endRow)
  {
    RowTextsSplit(measurement, tagNames, fieldNames, t, startRow, midRow, endRow);
    ConcatAppend(RowTexts(measurement, tagNames, fieldNames, t, startRow, midRow),
                 RowTexts(measurement, tagNames, fieldNames, t, midRow, endRow));
  }
}

=== FILE: reader.dfy ===
/** Reading serializer output back: a kept line is its head (measurement
    and tag pairs, comma-joined), its field pairs (comma-joined) and its
    timestamp, separated by single spaces and ended by a newline. When no
    name or value holds a separator, cutting the line at its separators
    recovers exactly those parts, so no comma dangles and no space is
    doubled. When no name or value holds a newline, the output has exactly
    one newline per kept row. */
module LineReader {
  import opened Wrappers
  import opened Text
  import opened Decimal
  import opened Cells
  import opened LineProtocol

  /** A line cut at its separators: the measurement followed by the tag
      pairs, the field pairs (none for a line without a field section) and
      the timestamp text. */
  datatype LineParts = LineParts(head: seq<string>, fields: seq<string>, timestamp: string)

  /** Cuts a newline-terminated line at its spaces, and the head and field
      section at their commas. */
  function ParseLine(l: string): Option<LineParts>
  {
    if |l| == 0 || l[|l| - 1] != '\n' then None
    else
      var parts := Split(l[..|l| - 1], ' ');
      if |parts| == 3 then Some(LineParts(Split(parts[0], ','), Split(parts[1], ','), parts[2]))
      else if |parts| == 2 then Some(LineParts(Split(parts[0], ','), [], parts[1]))
      else None
  }

  /** The measurement followed by the tag pairs, comma-joined. */
  function Head(measurement: string, tagNames: seq<string>, t: Table, row: nat): string
    requires RowReadable(t, |tagNames|, row)
  {
    Join([measurement] + TagPairs(tagNames, t, row), ',')
  }

  /** The sections of a kept line, in order. */
  function Sections(measurement: string, tagNames: seq<string>, fieldNames: seq<string>, t: Table, row: nat): seq<string>
    requires RowReadable(t, |tagNames| + |fieldNames|, row)
  {
    var head := Head(measurement, tagNames, t, row);
    var ts := IntToString(t.time[row]);
    if |fieldNames| == 0 then [head, ts]
    else [head, Join(Emitted(FieldOptions(|tagNames|, fieldNames, t, row)), ','), ts]
  }

  /** A kept line is its sections joined by single spaces, then a newline:
      the head (measurement, then a comma and the comma-joined tag pairs
      when there are tags), the comma-joined kept field pairs when there are
      fields, and the timestamp. */
  lemma LineLayout(measurement: string, tagNames: seq<string>, fieldNames: seq<string>, t: Table, row: nat)
    requires RowReadable(t, |tagNames| + |fieldNames|, row)
    requires Line(measurement, tagNames, fieldNames, t, row).Some?
    ensures Line(measurement, tagNames, fieldNames, t, row).value
         == Join(Sections(measurement, tagNames, fieldNames, t, row), ' ') + "\n"
  {
    var tp := TagPairs(tagNames, t, row);
    var head := Head(measurement, tagNames, t, row);
    var ts := IntToString(t.time[row]);
    if |tp| > 0 {
      assert ([measurement] + tp)[1..] == tp;
    }
    assert head + " " == measurement + TagSection(tagNames, t, row);
    var parts := Sections(measurement, tagNames, fieldNames, t, row);
    if |fieldNames| == 0 {
      assert Join(parts, ' ') == head + " " + ts;
    } else {
      var fs := Join(Emitted(FieldOptions(|tagNames|, fieldNames, t, row)), ',');
      assert parts[1..] == [fs, ts] && parts[1..][1..] == [ts];
      assert Join(parts[1..], ' ') == fs + " " + ts;
      assert Join(parts, ' ') == head + " " + (fs + " " + ts);
    }
  }

  /** The sections of a row without separators hold no space or newline,
      and the pieces of its head and field section hold no comma. */
  lemma SectionsPlain(measurement: string, tagNames: seq<string>, fieldNames: seq<string>, t: Table, row: nat)
    requires PlainRow(measurement, tagNames, fieldNames, t, row)
    ensures NoneHolds([measurement] + TagPairs(tagNames, t, row), ',')
    ensures NoneHolds(Emitted(FieldOptions(|tagNames|, fieldNames, t, row)), ',')
    ensures NoneHolds(Sections(measurement, tagNames, fieldNames, t, row), ' ')
    ensures NoneHolds(Sections(measurement, tagNames, fieldNames, t, row), '\n')
  {
    var hs := [measurement] + TagPairs(tagNames, t, row);
    var pairs := Emitted(FieldOptions(|tagNames|, fieldNames, t, row));
    PairsPlain(measurement, tagNames, fieldNames, t, row);
    DecimalPlain(t.time[row]);
    assert AllPlain(hs);
    JoinExcludes(hs, ',', ' ');
    JoinExcludes(pairs, ',', ' ');
    JoinExcludes(hs, ',', '\n');
    JoinExcludes(pairs, ',', '\n');
  }

  /** Cutting a line assembled from separator-free pieces recovers the pieces. */
  lemma ParseAssembled(hs: seq<string>, pairs: seq<string>, ts: string, withFields: bool)
    requires |hs| > 0 && (withFields ==> |pairs| > 0)
    requires NoneHolds(hs, ',') && NoneHolds(pairs, ',')
    requires NoneHolds(if withFields then [Join(hs, ','), Join(pairs, ','), ts] else [Join(hs, ','), ts], ' ')
    ensures var parts := if withFields then [Join(hs, ','), Join(pairs, ','), ts] else [Join(hs, ','), ts];
            ParseLine(Join(parts, ' ') + "\n") == Some(LineParts(hs, if withFields then pairs else [], ts))
  {
    var parts := if withFields then [Join(hs, ','), Join(pairs, ','), ts] else [Join(hs, ','), ts];
    var l := Join(parts, ' ') + "\n";
    assert l[..|l| - 1] == Join(parts, ' ');
    SplitJoin(parts, ' ');
    SplitJoin(hs, ',');
    if withFields {
      SplitJoin(pairs, ',');
    }
  }

  /** Every kept line of a row without separators in its names and values
      reads back as its measurement, its tag pairs in tag order, its kept
      field pairs in field order and its timestamp. */
  lemma LineRoundTrip(measurement: string, tagNames: seq<string>, fieldNames: seq<string>, t: Table, row: nat)
    requires PlainRow(measurement, tagNames, fieldNames, t, row)
    requires Line(measurement, tagNames, fieldNames, t, row).Some?
    ensures ParseLine(Line(measurement, tagNames, fieldNames, t, row).value)
         == Some(LineParts([measurement] + TagPairs(tagNames, t, row),
                           Emitted(FieldOptions(|tagNames|, fieldNames, t, row)),
                           IntToString(t.time[row])))
  {
    var hs := [measurement] + TagPairs(tagNames, t, row);
    var pairs := Emitted(FieldOptions(|tagNames|, fieldNames, t, row));
    LineLayout(measurement, tagNames, fieldNames, t, row);
    SectionsPlain(measurement, tagNames, fieldNames, t, row);
    ParseAssembled(hs, pairs, IntToString(t.time[row]), |fieldNames| > 0);
  }

  /** The text a cell contributes holds no newline. */
  predicate NewlineFreeCell(c: Cell)
  {
    match c
    case Str(s) => '\n' !in s
    case Real(_, d) => '\n' !in d
    case _ => true
  }

  /** Names and cell texts of row `row` hold no newline; spaces and commas
      are allowed. This is all a row needs for its line to hold one newline. */
  predicate NewlineFreeRow(measurement: string, tagNames: seq<string>, fieldNames: seq<string>, t: Table, row: nat)
  {
    && RowReadable(t, |tagNames| + |fieldNames|, row)
    && '\n' !in measurement
    && (forall k :: 0 <= k < |tagNames| ==> '\n' !in tagNames[k] && NewlineFreeCell(t.columns[k][row]))
    && (forall j :: 0 <= j < |fieldNames| ==> '\n' !in fieldNames[j] && NewlineFreeCell(FieldCell(t, |tagNames|, j, row)))
  }

  /** The sections of a newline-free row hold no newline. */
  lemma SectionsNewlineFree(measurement: string, tagNames: seq<string>, fieldNames: seq<string>, t: Table, row: nat)
    requires NewlineFreeRow(measurement, tagNames, fieldNames, t, row)
    ensures NoneHolds(Sections(measurement, tagNames, fieldNames, t, row), '\n')
  {
    var hs := [measurement] + TagPairs(tagNames, t, row);
    var opts := FieldOptions(|tagNames|, fieldNames, t, row);
    forall j | 0 <= j < |opts| && opts[j].Some?
      ensures '\n' !in opts[j].value
    {
      var c := FieldCell(t, |tagNames|, j, row);
      match c
      case SignedInt(_, v) => DecimalPlain(v);
      case UnsignedInt(_, v) => DecimalPlain(v);
      case _ =>
    }
    var pairs := Emitted(opts);
    EmittedMembers(opts);
    forall j | 0 <= j < |pairs|
      ensures '\n' !in pairs[j]
    {
      assert pairs[j] in pairs;
      var i :| 0 <= i < |opts| && opts[i] == Some(pairs[j]);
    }
    assert NoneHolds(hs, '\n');
    JoinExcludes(hs, ',', '\n');
    JoinExcludes(pairs, ',', '\n');
    DecimalPlain(t.time[row]);
  }

  /** A kept line of a newline-free row holds exactly one newline, its last character. */
  lemma LineNewline(measurement: string, tagNames: seq<string>, fieldNames: seq<string>, t: Table, row: nat)
    requires NewlineFreeRow(measurement, tagNames, fieldNames, t, row)
    requires Line(measurement, tagNames, fieldNames, t, row).Some?
    ensures var l := Line(measurement, tagNames, fieldNames, t, row).value;
            '\n' !in l[..|l| - 1] && multiset(l)['\n'] == 1
  {
    var l := Line(measurement, tagNames, fieldNames, t, row).value;
    var parts := Sections(measurement, tagNames, fieldNames, t, row);
    LineLayout(measurement, tagNames, fieldNames, t, row);
    SectionsNewlineFree(measurement, tagNames, fieldNames, t, row);
    JoinExcludes(parts, ' ', '\n');
    var body := l[..|l| - 1];
    assert l == body + "\n";
    assert multiset(body)['\n'] == 0;
  }

  /** The non-empty text of a newline-free row holds one newline. */
  lemma TextOneNewline(measurement: string, tagNames: seq<string>, fieldNames: seq<string>, t: Table, row: nat)
    requires NewlineFreeRow(measurement, tagNames, fieldNames, t, row)
    ensures var text := RowText(measurement, tagNames, fieldNames, t, row);
            text != "" ==> multiset(text)['\n'] == 1
  {
    if Line(measurement, tagNames, fieldNames, t, row).Some? {
      LineNewline(measurement, tagNames, fieldNames, t, row);
    }
  }

  /** A newline-free row has an empty text when dropped and a text
      holding one newline when kept. */
  lemma RowNewlines(measurement: string, tagNames: seq<string>, fieldNames: seq<string>, t: Table, row: nat)
    requires NewlineFreeRow(measurement, tagNames, fieldNames, t, row)
    ensures var text := RowText(measurement, tagNames, fieldNames, t, row);
            && (text == "" <==> Line(measurement, tagNames, fieldNames, t, row).None?)
            && (text != "" ==> multiset(text)['\n'] == 1)
  {
    if Line(measurement, tagNames, fieldNames, t, row).Some? {
      LineNewline(measurement, tagNames, fieldNames, t, row);
    }
  }

  /** Every non-empty text of a range of newline-free rows holds one newline. */
  lemma RangeNewlines(measurement: string, tagNames: seq<string>, fieldNames: seq<string>, t: Table,
                      startRow: nat, endRow: nat)
    requires RangeReadable(t, |tagNames| + |fieldNames|, startRow, endRow)
    requires forall row :: startRow <= row < endRow ==> NewlineFreeRow(measurement, tagNames, fieldNames, t, row)
    ensures var texts := RowTexts(measurement, tagNames, fieldNames, t, startRow, endRow);
            forall i :: 0 <= i < |texts| && texts[i] != "" ==> multiset(texts[i])['\n'] == 1
  {
    var texts := RowTexts(measurement, tagNames, fieldNames, t, startRow, endRow);
    forall i | 0 <= i < |texts| && texts[i] != ""
      ensures multiset(texts[i])['\n'] == 1
    {
      TextNewline(measurement, tagNames, fieldNames, t, startRow, endRow, i);
    }
  }

  /** The text at index `i` of a range is that of a newline-free row. */
  lemma TextNewline(measurement: string, tagNames: seq<string>, fieldNames: seq<string>, t: Table,
                    startRow: nat, endRow: nat, i: nat)
    requires RangeReadable(t, |tagNames| + |fieldNames|, startRow, endRow)
    requires startRow + i < endRow
    requires NewlineFreeRow(measurement, tagNames, fieldNames, t, startRow + i)
    ensures var texts := RowTexts(measurement, tagNames, fieldNames, t, startRow, endRow);
            i < |texts| && (texts[i] != "" ==> multiset(texts[i])['\n'] == 1)
  {
    RowTextsAt(measurement, tagNames, fieldNames, t, startRow, endRow, i);
    TextOneNewline(measurement, tagNames, fieldNames, t, startRow + i);
  }

  /** The output of a range of newline-free rows holds one newline per kept
      row: every line is terminated, and lines are neither merged nor split.
      Spaces and commas in names and values, which the serializer copies
      unescaped, do not matter here. */
  lemma NewlineCount(measurement: string, tagNames: seq<string>, fieldNames: seq<string>, t: Table,
                     startRow: nat, endRow: nat)
    requires RangeReadable(t, |tagNames| + |fieldNames|, startRow, endRow)
    requires forall row :: startRow <= row < endRow ==> NewlineFreeRow(measurement, tagNames, fieldNames, t, row)
    ensures multiset(Convert(measurement, tagNames, fieldNames, t, startRow, endRow))['\n']
         == KeptRows(measurement, tagNames, fieldNames, t, startRow, endRow)
  {
    var texts := RowTexts(measurement, tagNames, fieldNames, t, startRow, endRow);
    RangeNewlines(measurement, tagNames, fieldNames, t, startRow, endRow);
    OnePerElement(texts, '\n');
  }

  /** Reading a kept line back gives, for tag k, `name=` followed by the
      cell's text for a char-cell or string column, and by nothing for a
      column of any other class. */
  lemma TagReadBack(measurement: string, tagNames: seq<string>, fieldNames: seq<string>, t: Table, row: nat, k: nat)
    requires PlainRow(measurement, tagNames, fieldNames, t, row)
    requires Line(measurement, tagNames, fieldNames, t, row).Some?
    requires k < |tagNames|
    ensures var parsed := ParseLine(Line(measurement, tagNames, fieldNames, t, row).value);
            var c := t.columns[k][row];
            && parsed.Some? && |parsed.value.head| == |tagNames| + 1
            && parsed.value.head[k + 1] == tagNames[k] + "=" + (if c.Str? then c.text else "")
  {
    LineRoundTrip(measurement, tagNames, fieldNames, t, row);
  }
}

=== FILE: serializer.dfy ===
/** The serializer as the MEX function writes it: a row loop, a tag loop, a
    field loop with a `switch` on the column class, a skip counter, and the
    separator bookkeeping that removes a dangling comma with `pop_back`.
    Each method is proved to produce the text `LineProtocol` describes. */
module Serializer {
  import opened Wrappers
  import opened Text
  import opened Decimal
  import opened Cells
  import opened LineProtocol

  /** The `switch` on a field column's class: appends `name=value` to
      `rowStr`, or reports the cell as skipped (`is_nan`) and appends nothing. */
  method AppendField(rowStr: string, name: string, cell: Cell) returns (rowStr': string, isNan: bool)
    ensures isNan <==> FieldPair(name, cell).None?
    ensures !isNan ==> rowStr' == rowStr + FieldPair(name, cell).value
    ensures isNan ==> rowStr' == rowStr
  {
    var temp := name + "=";
    isNan := false;
    rowStr' := rowStr;
    match cell {
      case SignedInt(_, v) =>
        rowStr' := rowStr' + temp + IntToString(v) + "i";
      case UnsignedInt(_, v) =>
        rowStr' := rowStr' + temp + NatToString(v) + "u";
      case Str(s) =>
        rowStr' := rowStr' + temp + "\"" + s + "\"";
      case Real(finite, digits) =>
        if !finite {
          isNan := true;
        } else {
          rowStr' := rowStr' + temp + digits;
        }
      case Unsupported =>
        isNan := true;
    }
  }

  /** The tag loop: after the measurement name, each tag as `name=value`
      read from `data[k + 1]`, followed by a comma, or by a space after the
      last tag. */
  method WriteTags(measurement: string, tagNames: seq<string>, data: Table, iRow: nat) returns (rowStr: string)
    requires RowReadable(data, |tagNames|, iRow)
    ensures rowStr == measurement + TagSection(tagNames, data, iRow)
  {
    rowStr := measurement;
    if |tagNames| <= 0 {
      rowStr := rowStr + " ";
    } else {
      rowStr := rowStr + ",";
    }
    ghost var opening := rowStr;
    ghost var tp := TagPairs(tagNames, data, iRow);
    var colIndx := 0;
    while colIndx < |tagNames|
      invariant colIndx <= |tagNames|
      invariant colIndx < |tagNames| ==> rowStr == opening + Terminated(tp[..colIndx], ',')
      invariant colIndx == |tagNames| ==> rowStr == measurement + TagSection(tagNames, data, iRow)
    {
      ghost var before := rowStr;
      var k := colIndx;
      rowStr := rowStr + tagNames[k] + "=";
      colIndx := colIndx + 1;
      var col := data.columns[colIndx - 1];  // data[colIndx]
      match col[iRow] {
        case Str(s) => rowStr := rowStr + s;
        case _ =>
      }
      assert rowStr == before + tp[k];
      assert tp[..k + 1] == tp[..k] + [tp[k]];
      if k == |tagNames| - 1 {
        assert tp[..k + 1] == tp;
        SeparatorClose(before, opening, tp[..k], tp[k], ',', ' ');
        rowStr := rowStr + " ";
      } else {
        SeparatorStep(before, opening, tp[..k], tp[k], ',');
        rowStr := rowStr + ",";
      }
    }
  }

  /** The separator written after field `j` (the `if` chain after the
      `switch`): a space after the last field, popping the comma a previous
      kept field left when the last field itself was skipped; a comma after
      any other kept field; nothing after any other skipped field.
      `head` is the text before the field section and `opts` the row's
      field texts, None for a skipped field. */
  method CloseField(rowStr: string, isLast: bool, isNan: bool,
                    ghost head: string, ghost opts: seq<Option<string>>, ghost j: nat)
    returns (rowStr': string)
    requires |head| > 0 && head[|head| - 1] == ' '
    requires j < |opts|
    requires isNan <==> opts[j].None?
    requires rowStr == head + Terminated(Emitted(opts[..j]), ',') + (if opts[j].Some? then opts[j].value else "")
    ensures !isLast ==> rowStr' == head + Terminated(Emitted(opts[..j + 1]), ',')
    ensures isLast && |Emitted(opts[..j + 1])| > 0 ==> rowStr' == head + Join(Emitted(opts[..j + 1]), ',') + " "
    ensures isLast && |Emitted(opts[..j + 1])| == 0 ==> rowStr' == head
  {
    ghost var done := Emitted(opts[..j]);
    ghost var cur := opts[j];
    EmittedStep(opts, j);
    ghost var kept := done + (if cur.Some? then [cur.value] else []);
    ghost var prefix := head + Terminated(done, ',');
    if cur.Some? {
      SeparatorStep(prefix, head, done, cur.value, ',');
      SeparatorClose(prefix, head, done, cur.value, ',', ' ');
    } else {
      assert kept == done;
      assert rowStr == prefix;
    }
    if isLast && isNan {
      if |done| > 0 {
        TerminatedDropLast(done, ',');
        DropLastOfAppend(head, Terminated(done, ','));
      } else {
        assert rowStr == head;
        assert head[..|head| - 1] + " " == head;
      }
      rowStr' := rowStr[..|rowStr| - 1];
      rowStr' := rowStr' + " ";
    } else if isLast {
      rowStr' := rowStr + " ";
    } else if !isNan {
      rowStr' := rowStr + ",";
    } else {
      rowStr' := rowStr;
    }
  }

  /** One pass of the field loop for field `j`: append the field, count it
      when skipped (dropping the row once every field is skipped), then
      write its separator. `opts` are the row's field texts. */
  method FieldStep(rowStr: string, nanNum: nat, addRow: bool, fieldName: string, cell: Cell,
                   nFields: nat, isLast: bool, ghost head: string, ghost opts: seq<Option<string>>, ghost j: nat)
    returns (rowStr': string, nanNum': nat, addRow': bool)
    requires |head| > 0 && head[|head| - 1] == ' '
    requires nFields == |opts| && j < nFields && (isLast <==> j == nFields - 1)
    requires opts[j] == FieldPair(fieldName, cell)
    requires nanNum == SkipCount(opts[..j]) && nanNum <= j
    requires addRow <==> nanNum != |opts|
    requires rowStr == head + Terminated(Emitted(opts[..j]), ',')
    ensures nanNum' == SkipCount(opts[..j + 1]) && nanNum' <= j + 1
    ensures addRow' <==> nanNum' != |opts|
    ensures !isLast ==> rowStr' == head + Terminated(Emitted(opts[..j + 1]), ',')
    ensures isLast && |Emitted(opts[..j + 1])| > 0 ==> rowStr' == head + Join(Emitted(opts[..j + 1]), ',') + " "
    ensures isLast && |Emitted(opts[..j + 1])| == 0 ==> rowStr' == head
  {
    var isNan;
    rowStr', isNan := AppendField(rowStr, fieldName, cell);
    SkipStep(opts, j);
    nanNum' := nanNum;
    addRow' := addRow;
    if isNan {
      nanNum' := nanNum' + 1;
      if nFields == nanNum' {
        addRow' := false;
      }
    }
    rowStr' := CloseField(rowStr', isLast, isNan, head, opts, j);
  }

  /** The field loop, appending to `head`: emitted fields separated by
      single commas, one space after the last field even when that field is
      skipped, and the row dropped when the skip count reaches the number of
      fields. */
  method WriteFields(head: string, nTags: nat, fieldNames: seq<string>, data: Table, iRow: nat)
    returns (rowStr: string, addRow: bool)
    requires |head| > 0 && head[|head| - 1] == ' '
    requires RowReadable(data, nTags + |fieldNames|, iRow)
    ensures var pairs := Emitted(FieldOptions(nTags, fieldNames, data, iRow));
            && (addRow <==> |fieldNames| == 0 || |pairs| > 0)
            && (|pairs| == 0 ==> rowStr == head)
            && (|pairs| > 0 ==> rowStr == head + Join(pairs, ',') + " ")
  {
    ghost var opts := FieldOptions(nTags, fieldNames, data, iRow);
    rowStr := head;
    addRow := true;
    var nanNum := 0;
    var colIndx := nTags;
    var j := 0;
    while j < |fieldNames|
      invariant j <= |fieldNames|
      invariant colIndx == nTags + j
      invariant nanNum == SkipCount(opts[..j]) && nanNum <= j
      invariant addRow <==> |fieldNames| == 0 || nanNum != |fieldNames|
      invariant j < |fieldNames| ==> rowStr == head + Terminated(Emitted(opts[..j]), ',')
      invariant j == |fieldNames| && |Emitted(opts[..j])| == 0 ==> rowStr == head
      invariant j == |fieldNames| && |Emitted(opts[..j])| > 0 ==> rowStr == head + Join(Emitted(opts[..j]), ',') + " "
    {
      colIndx := colIndx + 1;
      var col := data.columns[colIndx - 1];  // data[colIndx]
      assert col[iRow] == FieldCell(data, nTags, j, iRow) && opts[j] == FieldPair(fieldNames[j], col[iRow]);
      rowStr, nanNum, addRow := FieldStep(rowStr, nanNum, addRow, fieldNames[j], col[iRow],
                                          |fieldNames|, j == |fieldNames| - 1, head, opts, j);
      j := j + 1;
    }
    assert opts[..j] == opts;
    EmittedCount(opts);
  }

  /** The body of the row loop for row `iRow`: the row text up to and
      including the space before the timestamp, and whether the row is kept. */
  method SerializeRow(measurement: string, fieldNames: seq<string>, tagNames: seq<string>, data: Table, iRow: nat)
    returns (rowStr: string, addRow: bool)
    requires RowReadable(data, |tagNames| + |fieldNames|, iRow)
    ensures addRow <==> Line(measurement, tagNames, fieldNames, data, iRow).Some?
    ensures addRow ==> Line(measurement, tagNames, fieldNames, data, iRow)
                       == Some(rowStr + IntToString(data.time[iRow]) + "\n")
    ensures RowText(measurement, tagNames, fieldNames, data, iRow)
         == if addRow then rowStr + IntToString(data.time[iRow]) + "\n" else ""
    ensures !addRow ==> rowStr == measurement + TagSection(tagNames, data, iRow)
  {
    var head := WriteTags(measurement, tagNames, data, iRow);
    assert head[|head| - 1] == ' ';
    rowStr, addRow := WriteFields(head, |tagNames|, fieldNames, data, iRow);
    ghost var pairs := Emitted(FieldOptions(|tagNames|, fieldNames, data, iRow));
    ghost var fieldSection := if |fieldNames| == 0 then "" else Join(pairs, ',') + " ";
    assert addRow ==> rowStr == head + fieldSection;
  }

  /** The MEX function: the lines of rows `[startRow, endRow)`, in row order,
      each row contributing its line or, when dropped, nothing. */
  method ConvertToLineProtocol(measurement: string, fieldNames: seq<string>, tagNames: seq<string>, data: Table,
                               startRow: nat, endRow: nat)
    returns (res: string)
    requires RangeReadable(data, |tagNames| + |fieldNames|, startRow, endRow)
    ensures res == Convert(measurement, tagNames, fieldNames, data, startRow, endRow)
  {
    res := "";
    var iRow := startRow;
    while iRow < endRow
      invariant startRow <= iRow
      invariant iRow <= endRow || iRow == startRow
      invariant res == Convert(measurement, tagNames, fieldNames, data, startRow, iRow)
    {
      RangeRow(data, |tagNames| + |fieldNames|, startRow, endRow, iRow);
      ConvertStep(measurement, tagNames, fieldNames, data, startRow, iRow);
      var rowStr, addRow := SerializeRow(measurement, fieldNames, tagNames, data, iRow);
      if addRow {
        res := res + (rowStr + IntToString(data.time[iRow]) + "\n");
      }
      iRow := iRow + 1;
    }
  }
}

=== FILE: text.dfy ===
/** Separator-joined and separator-split strings: the comma and space
    bookkeeping of a line-protocol line, stated once. */
module Text {

  /** No element of `xs` holds `c`. */
  predicate NoneHolds(xs: seq<string>, c: char)
  {
    forall k :: 0 <= k < |xs| ==> c !in xs[k]
  }

  /** The elements of `xs` with one `sep` between each neighbouring pair. */
  function Join(xs: seq<string>, sep: char): string
  {
    if |xs| == 0 then ""
    else if |xs| == 1 then xs[0]
    else xs[0] + [sep] + Join(xs[1..], sep)
  }

  /** The elements of `xs`, each followed by `sep`. */
  function Terminated(xs: seq<string>, sep: char): string
  {
    if |xs| == 0 then "" else xs[0] + [sep] + Terminated(xs[1..], sep)
  }

  /** Appending an element to a terminated list appends it and one separator. */
  lemma {:induction false} TerminatedSnoc(xs: seq<string>, x: string, sep: char)
    ensures Terminated(xs + [x], sep) == Terminated(xs, sep) + x + [sep]
  {
    if |xs| == 0 {
      assert xs + [x] == [x];
    } else {
      assert (xs + [x])[1..] == xs[1..] + [x];
      TerminatedSnoc(xs[1..], x, sep);
    }
  }

  /** A join of a non-empty list is the terminated prefix followed by the
      last element: no separator dangles after the last element. */
  lemma {:induction false} JoinSnoc(xs: seq<string>, x: string, sep: char)
    ensures Join(xs + [x], sep) == Terminated(xs, sep) + x
  {
    if |xs| == 0 {
      assert xs + [x] == [x];
    } else {
      assert (xs + [x])[1..] == xs[1..] + [x];
      JoinSnoc(xs[1..], x, sep);
    }
  }

  /** Removing the last character of a terminated non-empty list leaves the join. */
  lemma TerminatedDropLast(xs: seq<string>, sep: char)
    requires |xs| > 0
    ensures var t := Terminated(xs, sep);
            |t| > 0 && t[|t| - 1] == sep && t[..|t| - 1] == Join(xs, sep)
  {
    var init := xs[..|xs| - 1];
    var last := xs[|xs| - 1];
    assert xs == init + [last];
    TerminatedSnoc(init, last, sep);
    JoinSnoc(init, last, sep);
    var t := Terminated(xs, sep);
    assert t[..|t| - 1] == Terminated(init, sep) + last;
  }

  /** The index of the first occurrence of `c` in `s`. */
  function IndexOf(s: string, c: char): (i: nat)
    requires c in s
    ensures i < |s| && s[i] == c && c !in s[..i]
  {
    if s[0] == c then 0
    else
      assert c in s[1..] by { var k :| 0 <= k < |s| && s[k] == c; assert s[1..][k - 1] == c; }
      var i := IndexOf(s[1..], c);
      assert s[..i + 1] == [s[0]] + s[1..][..i];
      i + 1
  }

  /** `s` cut at every occurrence of `sep`; the pieces hold no `sep`. */
  function Split(s: string, sep: char): (r: seq<string>)
    ensures |r| > 0
    ensures NoneHolds(r, sep)
    decreases |s|
  {
    if sep !in s then [s]
    else
      var i := IndexOf(s, sep);
      [s[..i]] + Split(s[i + 1..], sep)
  }

  /** A separator-free first piece is split off at the first separator. */
  lemma SplitCons(a: string, b: string, sep: char)
    requires sep !in a
    ensures Split(a + [sep] + b, sep) == [a] + Split(b, sep)
  {
    var s := a + [sep] + b;
    assert s[|a|] == sep;
    var i := IndexOf(s, sep);
    assert i == |a|;
    assert s[..i] == a;
    assert s[i + 1..] == b;
  }

  /** Splitting undoes joining when no element holds the separator. */
  lemma {:induction false} SplitJoin(xs: seq<string>, sep: char)
    requires |xs| > 0
    requires NoneHolds(xs, sep)
    ensures Split(Join(xs, sep), sep) == xs
  {
    if |xs| > 1 {
      SplitCons(xs[0], Join(xs[1..], sep), sep);
      SplitJoin(xs[1..], sep);
      assert xs == [xs[0]] + xs[1..];
    }
  }

  /** Joining a first element to a non-empty rest puts one separator between them. */
  lemma JoinCons(x: string, xs: seq<string>, sep: char)
    requires |xs| > 0
    ensures Join([x] + xs, sep) == x + [sep] + Join(xs, sep)
  {
    assert ([x] + xs)[1..] == xs;
  }

  /** Joining undoes splitting. */
  lemma {:induction false} JoinSplit(s: string, sep: char)
    ensures Join(Split(s, sep), sep) == s
    decreases |s|
  {
    if sep in s {
      var i := IndexOf(s, sep);
      var a, b := s[..i], s[i + 1..];
      JoinSplit(b, sep);
      JoinCons(a, Split(b, sep), sep);
      assert s == a + [sep] + b;
    }
  }

  /** A character outside every element and different from the separator is
      absent from the join. */
  lemma {:induction false} JoinExcludes(xs: seq<string>, sep: char, c: char)
    requires c != sep
    requires NoneHolds(xs, c)
    ensures c !in Join(xs, sep)
  {
    if |xs| > 1 {
      JoinExcludes(xs[1..], sep, c);
    }
  }

  /** One step of a loop that writes elements with separators: `acc` holds
      the elements `done`, each terminated; appending `x` and a separator
      extends it by one element. */
  lemma SeparatorStep(acc: string, prefix: string, done: seq<string>, x: string, sep: char)
    requires acc == prefix + Terminated(done, sep)
    ensures acc + x + [sep] == prefix + Terminated(done + [x], sep)
  {
    TerminatedSnoc(done, x, sep);
    assert acc + x + [sep] == prefix + (Terminated(done, sep) + x + [sep]);
  }

  /** The last step of that loop: appending the last element `x` and `last`
      instead of a separator completes the join, followed by `last`. */
  lemma SeparatorClose(acc: string, prefix: string, done: seq<string>, x: string, sep: char, last: char)
    requires acc == prefix + Terminated(done, sep)
    ensures acc + x + [last] == prefix + Join(done + [x], sep) + [last]
  {
    JoinSnoc(done, x, sep);
    assert acc + x + [last] == prefix + (Terminated(done, sep) + x) + [last];
  }

  /** Removing the last character of `a + b`, for non-empty `b`, removes it from `b`. */
  lemma DropLastOfAppend(a: string, b: string)
    requires |b| > 0
    ensures (a + b)[..|a + b| - 1] == a + b[..|b| - 1]
  {
  }

  /** The elements of `xs` written one after the other. */
  function Concat(xs: seq<string>): string
  {
    if |xs| == 0 then "" else Concat(xs[..|xs| - 1]) + xs[|xs| - 1]
  }

  /** Concatenating one more element appends it. */
  lemma ConcatSnoc(xs: seq<string>, x: string)
    ensures Concat(xs + [x]) == Concat(xs) + x
  {
    assert (xs + [x])[..|xs|] == xs;
  }

  /** Concatenation distributes over appending lists. */
  lemma {:induction false} ConcatAppend(xs: seq<string>, ys: seq<string>)
    ensures Concat(xs + ys) == Concat(xs) + Concat(ys)
    decreases |ys|
  {
    if |ys| == 0 {
      assert xs + ys == xs;
    } else {
      var init := ys[..|ys| - 1];
      var y := ys[|ys| - 1];
      assert ys == init + [y];
      assert xs + ys == (xs + init) + [y];
      ConcatAppend(xs, init);
      ConcatSnoc(xs + init, y);
      ConcatSnoc(init, y);
      assert (Concat(xs) + Concat(init)) + y == Concat(xs) + (Concat(init) + y);
    }
  }

  /** Occurrences of `c` in `a + b` are those of `a` plus those of `b`. */
  lemma CountAppend(a: string, b: string, c: char)
    ensures multiset(a + b)[c] == multiset(a)[c] + multiset(b)[c]
  {
    assert multiset(a + b) == multiset(a) + multiset(b);
  }

  /** The number of non-empty elements of `xs`. */
  function NonEmpty(xs: seq<string>): (n: nat)
    ensures n <= |xs|
  {
    if |xs| == 0 then 0 else NonEmpty(xs[..|xs| - 1]) + (if xs[|xs| - 1] == "" then 0 else 1)
  }

  /** When every non-empty element holds `c` exactly once, the
      concatenation holds one `c` per non-empty element. */
  lemma {:induction false} OnePerElement(xs: seq<string>, c: char)
    requires forall i :: 0 <= i < |xs| && xs[i] != "" ==> multiset(xs[i])[c] == 1
    ensures multiset(Concat(xs))[c] == NonEmpty(xs)
  {
    if |xs| > 0 {
      var init := xs[..|xs| - 1];
      var x := xs[|xs| - 1];
      OnePerElement(init, c);
      CountAppend(Concat(init), x, c);
      if x == "" {
        assert multiset(x)[c] == 0;
      }
    }
  }

  /** A join ends with the last character of its last element. */
  lemma JoinLast(xs: seq<string>, sep: char)
    requires |xs| > 0 && |xs[|xs| - 1]| > 0
    ensures var j := Join(xs, sep);
            var x := xs[|xs| - 1];
            |j| > 0 && j[|j| - 1] == x[|x| - 1]
  {
    var init := xs[..|xs| - 1];
    assert xs == init + [xs[|xs| - 1]];
    JoinSnoc(init, xs[|xs| - 1], sep);
  }

  /** In `front + (body + " ") + ts + "\n"`, the space before `ts` directly
      follows the last character of `body`. */
  lemma TailLayout(front: string, body: string, ts: string)
    requires |body| > 0
    ensures var l := front + (body + " ") + ts + "\n";
            && |l| >= |ts| + 3
            && l[|l| - |ts| - 2] == ' '
            && l[|l| - |ts| - 3] == body[|body| - 1]
  {
    var l := front + (body + " ") + ts + "\n";
    assert l == (front + body) + (" " + ts + "\n");
  }
}

=== FILE: wrappers.dfy ===
/** Optional values, used for "a field cell that produces no text". */
module Wrappers {

  datatype Option<+T> = None | Some(value: T)
}
